=== FILE: README.md ===
# puzzlement search-and-summarize page, modelled in Dafny

The application is a small web app. It sends a query to a search API and asks
a chat model to summarize the results. It then renders a result page with the
query, the top five sources, related images and the answer. This project
models the deterministic core around the two network calls:

- `truncate`, which shortens source titles to 30 characters (`TextUtil`);
- `getHostname`, which shortens a link to a site name (`UrlUtil`). The parsed
  path strips a listed TLD and a `www.`. The fallback path strips schemes and
  `www.` and cuts at `/`, `?` or `#`;
- `isEmpty`, over a datatype of JavaScript values (`ValidationUtil`);
- `summarizeSearchResults` (`OpenAi`): the prompt built from the query and the
  snippets, the single user message sent, and the assistant-role check on the
  reply;
- the `/result` route (`ResultRoute`):
  - the loader's empty-query short-circuit;
  - the kind filter before summarizing;
  - the related images;
  - the top-five listing;
  - the choice between loader data and action data.

The JavaScript string builtins these rely on are spelled out in `JsStrings`:
- `indexOf`;
- `replace` with a string pattern, which replaces only the first occurrence;
- `endsWith`;
- the first field of `split(/[/?#]/)`;
- the decimal rendering of a number in a template literal.

Three things are parameters rather than models:
- the WHATWG `URL` constructor, which gives a hostname or throws;
- the search engine, which gives the `organic_results`, possibly absent, or
  fails;
- the chat model, which gives a reply message or fails.

Each run of the loader or the action returns the calls it made, so a call
that is skipped can be observed.

The source comment at the top of `app/util/url.util.ts` says
`wikipedia.org/wiki/Hello` gives `wikipedia`. The code gives `wikipedia.org`,
because the fallback path strips no TLD. The model follows the code; see
`UrlUtil.FallbackKeepsTld`.

## Model

| member | source | states |
|---|---|---|
| TextUtil.Truncate | app/util/text.util.ts:1-17 | A string of at most 30 characters comes back unchanged. A longer one becomes exactly 30: its first 27 characters, then `...`. The output never exceeds 30. |
| TextUtil.OmissionOnlyBranchUnreachable | app/util/text.util.ts:10-13 | `end` is the constant 27, so the `end < 1` branch never runs. |
| TextUtil.TruncateIdempotent | app/util/text.util.ts:7-16 | Truncating an already truncated title changes nothing. |
| TextUtil.TruncateKeepsPrefix | app/util/text.util.ts:14-16 | The output agrees with the input on the first min(length, 27) characters. |
| TextUtil.TruncateFixedPoints | app/util/text.util.ts:7-9 | A title is left alone exactly when it is at most 30 long. |
| JsStrings.IndexOf | app/util/url.util.ts:28 | `indexOf`: a reported position leaves room for the whole pattern. IndexOfFindsFirst characterises it fully. |
| JsStrings.RemoveFirst | app/util/url.util.ts:28 | `replace(p, '')` with a string pattern. It has no contract of its own; RemoveFirstOccurrence and RemoveFirstAbsent characterise it. |
| JsStrings.EndsWith | app/util/url.util.ts:28 | `endsWith`: the string's last characters are the suffix. It is a predicate with no contract; the reduction lemmas use it. |
| JsStrings.BeforeAny | app/util/url.util.ts:41 | `split(/[/?#]/)[0]`: the result is a prefix of the input with no separator in it. It ends either at the end of the input or just before a separator. |
| JsStrings.DecimalString | app/services/openai.ts:44 | `${n}` for a count: at least one digit, and no leading zero unless the number is 0. DecimalRoundTrip shows that the digits read back as the number. |
| JsStrings.IndexOfFindsFirst | app/util/url.util.ts:28 | `indexOf` reports the first position where the pattern occurs. It reports none only when the pattern occurs nowhere. |
| JsStrings.RemoveFirstOccurrence | app/util/url.util.ts:28 | `replace(p, '')` removes the first occurrence of `p` and keeps the rest. |
| JsStrings.RemoveFirstAbsent | app/util/url.util.ts:35 | `replace(p, '')` leaves a string without `p` unchanged. |
| JsStrings.BeforeAnySplit | app/util/url.util.ts:41 | The first field of the split is the separator-free text before the first separator. |
| JsStrings.DecimalRoundTrip | app/services/openai.ts:44 | Reading the rendered digits of a number back gives the number. |
| UrlUtil.GetHostname | app/util/url.util.ts:30-43 | `getHostname` as written. It has no contract of its own: ParsedWithoutTld and ParsedWithTld characterise the parsed path, and Fallback and its lemmas the catch path. |
| UrlUtil.ReduceTlds | app/util/url.util.ts:33-34 | `commonTLDs.reduce(domainReducer(hostname), hostname)`, with the step as a parameter. ReduceNoMatch and ReduceUniqueMatch characterise it. |
| UrlUtil.RemoveFirstTld | app/util/url.util.ts:27-28 | The step of `domainReducer` as written, `hostname.replace(domain, '')`. RemoveFirstTldIsStripWhenLast relates it to the corrected step. |
| UrlUtil.Fallback | app/util/url.util.ts:36-42 | The catch branch removes the first `https://`, then `http://`, then `www.`. Its result is the longest separator-free prefix of what remains. |
| UrlUtil.CommonTLDsSuffixFree | app/util/url.util.ts:10-25 | No entry of the TLD list is a suffix of another entry. |
| UrlUtil.AtMostOneTldMatches | app/util/url.util.ts:27-28 | Over a suffix-free list, a hostname ends with at most one entry. |
| UrlUtil.ReduceNoMatch | app/util/url.util.ts:27-34 | When no entry matches, the reduction returns the hostname it started from. |
| UrlUtil.ReduceUniqueMatch | app/util/url.util.ts:27-34 | Over a suffix-free list, the reduction applies the stripping step for the one matching entry. Every other entry is ignored. |
| UrlUtil.ParsedWithoutTld | app/util/url.util.ts:32-35 | A parsed hostname with no listed suffix only loses its first `www.`, wherever that occurs. |
| UrlUtil.ParsedWithTld | app/util/url.util.ts:28-35 | A parsed hostname ending in a listed suffix loses the first occurrence of that suffix's text, which may not be the suffix. It then loses its first `www.`. |
| UrlUtil.GoogleExample | app/util/url.util.ts:6 | A link parsed to `www.google.com` yields `google`. |
| UrlUtil.EmptyUrl | app/util/url.util.ts:36-42 | An empty link fails to parse and yields the empty string. |
| UrlUtil.FallbackOfBareHost | app/util/url.util.ts:36-42 | An unparsable link made of a bare host name and a path, query or fragment yields the host name with its TLD. |
| UrlUtil.FallbackOfHttpsWww | app/util/url.util.ts:36-42 | An unparsable `https://www.` link yields the text between `www.` and the first separator. |
| UrlUtil.FallbackKeepsTld | app/util/url.util.ts:36-42 | `wikipedia.org/wiki/Hello` fails to parse and yields `wikipedia.org`, not the `wikipedia` that the comment on line 7 claims. |
| UrlUtil.CompassExample | app/util/url.util.ts:28-35 | A link parsed to `www.compass.com` yields `wwwpass.com`. |
| UrlUtil.StripSuffix | app/util/url.util.ts:27-28 | For a matching domain, the corrected step leaves exactly the part of the hostname before that domain. Otherwise it leaves the hostname unchanged. |
| UrlUtil.GetHostnameIntended | app/util/url.util.ts:30-43 | `getHostname` with the matching TLD cut off the end. IntendedStripsWwwAndTld and WrittenAgreesWithIntended characterise it. |
| UrlUtil.IntendedStripsWwwAndTld | app/util/url.util.ts:27-35 | With the suffix cut off the end, `www.` + name + a listed TLD always yields the name. |
| UrlUtil.RemoveFirstTldIsStripWhenLast | app/util/url.util.ts:27-28 | The step as written equals the corrected step when the TLD's text first occurs at the end. |
| UrlUtil.WrittenAgreesWithIntended | app/util/url.util.ts:30-43 | `getHostname` as written and the corrected version agree on every link whose listed suffix's text does not occur earlier in the hostname. |
| ValidationUtil.IsEmpty | app/util/validation.util.ts:1-19 | `null` and `undefined` are empty. A string or array is empty exactly when its length is 0. A Map or Set is empty exactly when its size is 0, whatever its own keys. Any other object is empty exactly when it has no own keys. Booleans, numbers, bigints, symbols and functions are never empty. The helpers TypeOf (`typeof`, lines 6 and 10) and LooselyNull (`value == null`, line 2) give the case split. |
| ValidationUtil.EmptyIsNotFalsy | app/util/validation.util.ts:1-19 | Emptiness agrees with falsiness on nullish values and strings. Empty objects are truthy. `false`, `0` and `0n` are falsy but not empty. |
| OpenAi.Preamble | app/services/openai.ts:40 | The prompt opens with the fixed text, quotes the query in double quotes, and ends in `:` and two newlines. |
| OpenAi.ResultLine | app/services/openai.ts:44 | The line for the result at index i. LineLabel shows that it is numbered i+1. |
| OpenAi.Prompt | app/services/openai.ts:40-45 | The whole prompt: the preamble, then Lines, one ResultLine per result in order (the `forEach` of lines 43-45). BuildPrompt, PromptOfNoResults, PromptExtends and PromptPrefix characterise it. |
| OpenAi.QueryRoundTrip | app/services/openai.ts:40 | The query can be read back out of the preamble. |
| OpenAi.BuildPrompt | app/services/openai.ts:40-45 | The loop that appends one line per result builds the preamble followed by `Result i+1: snippet` for each result, in order. |
| OpenAi.PromptOfNoResults | app/services/openai.ts:40-45 | With no results, the prompt is the preamble alone. |
| OpenAi.PromptExtends | app/services/openai.ts:43-45 | One more result extends the prompt by exactly its own line, numbered one past the previous results. |
| OpenAi.PromptPrefix | app/services/openai.ts:43-45 | The prompt for the first k results is a prefix of the whole prompt. The line after it is the line of result k, numbered k+1, so the numbers run 1..n with no gaps. |
| OpenAi.LineLabel | app/services/openai.ts:44 | A result line starts with `Result `, then digits that read as its 1-based number, then `: `. |
| OpenAi.ExtractAnswer | app/services/openai.ts:54-57 | Only an assistant reply yields text, and that text is its content unchanged. Any other role gives the "Expected assistant message" error. |
| OpenAi.Request | app/services/openai.ts:51 | The request sent: the configured model and one user message holding the prompt. Summarize's contract states it for every summary. |
| OpenAi.SentRequest | app/services/openai.ts:43-51 | A request is sent exactly when the results are an array. |
| OpenAi.Summarize | app/services/openai.ts:33-58 | `undefined` results fail before any call. A summary is only ever the content of an assistant reply to the request: the configured model and one user message holding the prompt. |
| OpenAi.SummarizeReply | app/services/openai.ts:51-57 | An assistant reply gives its content. A reply in any other role is an error, whatever its content. |
| ResultRoute.ForSummary | app/routes/result.tsx:27-29 | The filtered list is no longer than the input, and every entry has a summarizable kind. |
| ResultRoute.ForSummaryAppend | app/routes/result.tsx:27-29 | Filtering distributes over concatenation, so relative order is kept. |
| ResultRoute.ForSummaryMembers | app/routes/result.tsx:27-29 | A result reaches the summarizer exactly when its kind is `knowledge_graph`, `organic_result` or `answer_box`, the test the helper Summarizable makes at line 28. |
| ResultRoute.ForSummaryOf | app/routes/result.tsx:27-29 | `searchResults?.filter(...)`: the filtered list is present exactly when the results are. |
| ResultRoute.CollectImagesIsThumbnails | app/routes/result.tsx:39-49 | The `reduce` appends exactly the shown thumbnails, in result order. |
| ResultRoute.ThumbnailsMembers | app/routes/result.tsx:41-46 | A thumbnail is shown exactly when some result of kind `answer_box` or `top_stories` carries it non-empty, the condition of lines 41-44 that the helper ShowsImage states. |
| ResultRoute.CollectImages | app/routes/result.tsx:40-48 | The `reduce` of `getRelatedImages`. CollectImagesIsThumbnails characterises it. |
| ResultRoute.RelatedImages | app/routes/result.tsx:39-49 | `getRelatedImages`: `undefined` for undefined results. For present results, RelatedImagesOfResults characterises it. |
| ResultRoute.RelatedImagesOfResults | app/routes/result.tsx:39-49 | For results that are present, the related images are their thumbnails. There are never more images than results. |
| ResultRoute.TopResults | app/routes/result.tsx:95 | The listing is the first min(5, n) results, and empty when the results are `undefined`. |
| ResultRoute.TopResultsIgnoreTheRest | app/routes/result.tsx:95 | Results after the fifth never change the listing. |
| ResultRoute.Items | app/routes/result.tsx:105-117 | There is one listed item per top result, and every title is at most 30 characters. Each domain is `getHostname` as written. |
| ResultRoute.ItemsShowResults | app/routes/result.tsx:113-116 | Item k shows result k's truncated title and its link shortened by `getHostname` as written. |
| ResultRoute.SearchAndSummarize | app/routes/result.tsx:23-30 | The search, then the summary over the filtered results, as both the loader and the action (lines 55-62) do. The search is always the first call, and successful data carries the query. |
| ResultRoute.Loader | app/routes/result.tsx:14-37 | A missing or empty `q` gives no results and an empty summary, and makes no call. Otherwise the search is the first call. |
| ResultRoute.LoaderPassesResults | app/routes/result.tsx:23-36 | The loader returns the search's full, unfiltered results. The summary is over the summarizable ones. |
| ResultRoute.FollowupQuery | app/routes/result.tsx:53 | `${formData.get('followup')}`: the field's text, or `null` when it is missing. ActionHasNoShortCircuit and Action's contract use it. |
| ResultRoute.Action | app/routes/result.tsx:51-88 | The action always searches first, with the follow-up text (`null` when the field is missing). It succeeds only with a summary. |
| ResultRoute.ActionHasNoShortCircuit | app/routes/result.tsx:51-62 | An empty query makes the loader call nothing. The action still searches for it. |
| ResultRoute.ActionSummaryFromAssistant | app/routes/result.tsx:55-62 | The action's summary is the assistant's reply to the prompt over the summarizable results of its search. |
| ResultRoute.JsonKeys | app/routes/result.tsx:83-87 | The keys of the action's JSON; a key whose value is `undefined` is dropped. FollowupWhenActionData shows that the list is never empty. |
| ResultRoute.IsFollowup | app/routes/result.tsx:93 | `actionData && Object.keys(actionData).length > 0`. FollowupWhenActionData characterises it. |
| ResultRoute.FollowupWhenActionData | app/routes/result.tsx:93 | The action's JSON always has keys, so `isFollowup` holds exactly when there is action data. |
| ResultRoute.SelectPageData | app/routes/result.tsx:93-94 | The page shows the action data when there is any, and the loader data otherwise. |
| ResultRoute.Page | app/routes/result.tsx:94-96 | The page's own render throws exactly when the selected data has no `searchResults`, since line 159 reads the length of the related images. |
| ResultRoute.PageFailsWithoutResults | app/routes/result.tsx:159 | Data without `searchResults` makes the page throw, although the listing falls back to `[]`. |
| ResultRoute.AbsentResultsRejectSummary | app/routes/result.tsx:23-30 | When the search has no organic results, the loader's summary is rejected with ResultsNotAnArray and no chat call is made, because `forEach` on `undefined` throws (openai.ts:43). Whenever loader data lacks results, its summary is that rejection. The action, which awaits the summary (line 57), fails on that input and succeeds only with results. |
| ResultRoute.PageIntended | app/routes/result.tsx:94-96 | The corrected page. It differs from Page only in showing no related images for absent results. PageIntendedShows characterises it. |
| ResultRoute.PageIntendedShows | app/routes/result.tsx:94-96 | The corrected page, which differs only in falling back to no related images, always renders. It shows the selected query, at most five items, item `k` made from result `k`'s title and link, and only image-kind thumbnails. It agrees with the page as written whenever that renders. The page's own render is all it covers: data without results also carries a rejected summary (AbsentResultsRejectSummary). |

## Left out

- The `URL` constructor is the parameter `parse`. Which strings it accepts and which hostname it gives are not modelled.
- The search API call and the chat model call are parameters, as are the API keys and environment variables. `searchGoogle`'s network client is not modelled beyond returning `organic_results`, which may be absent.
- `console.log` output and the model's `debug` flag are left out, as are the commented-out tool-calling example in `app/services/openai.ts` and the commented-out returns in the action.
- Remix plumbing is left out: `defer` vs `json`, `Suspense`/`Await`, zod/zodix query parsing and form-data reading. The deferred summary is modelled as already settled. The action's `formData.get('followup')` is an optional string.
- JSX rendering is left out: class names, links, the `" " + summary` paragraph and the follow-up form. The page is modelled up to the values it renders.
- ResultRoute.Page: a rejected summary stays in the view as a `Failure`. In the application, `<Await resolve={summary}>` (line 128) has no `errorElement`, so a failed chat call, a non-assistant reply, or `undefined` results would rethrow to the route's error boundary instead of rendering the page. The last cause comes with every page data that lacks `searchResults` (AbsentResultsRejectSummary). So the line-159 Finding's correction, PageIntended, renders only in this model. In the application it changes only which error reaches the boundary first, unless the summary's handling of `undefined` results is corrected too. Page models only the component's own render, lines 93-96 and 159.
- `app/root.tsx` and `app/routes/_index.tsx` are not part of this model.
- A `snippet`, `title` or `link` that is not a string: the record declares strings, and `${undefined}` rendering is not modelled.
- JavaScript `replace` replacement patterns (`$&` and the like) do not arise, since every replacement is `''`.
- ValidationUtil.IsEmpty: numbers are reals, so `NaN` is not represented. Sparse arrays and array holes are not modelled. An object's own keys are given as data rather than computed.
- Strings are sequences of Unicode scalar values, with no normalisation. JavaScript measures strings in UTF-16 code units, so the lengths in TextUtil.Truncate and the positions JsStrings.IndexOf reports agree with JavaScript's only for strings with no character outside the Basic Multilingual Plane. A `slice` that splits a surrogate pair is not modelled.

## Findings

| source | as written | input that shows it | evidently intended | confidence | as-written member | corrected member |
|---|---|---|---|---|---|---|
| app/util/url.util.ts:27-28 | `hostname.replace(domain, '')` removes the first occurrence of the TLD's text, wherever it is | a link parsed to `www.compass.com` gives `wwwpass.com` | cut the matching TLD off the end of the hostname, giving `compass` | high; not executed | UrlUtil.CompassExample | UrlUtil.IntendedStripsWwwAndTld |
| app/routes/result.tsx:159 | `getRelatedImages(searchResults)` returns `undefined` when the search response has no `organic_results`, and `relatedImages.length` then throws | page data whose `searchResults` is absent | no related images, as the listing already falls back to `[]`. The same input always rejects the summary (AbsentResultsRejectSummary), so `<Await>` at line 128 still reaches the error boundary unless that is corrected as well. This fix only changes which error gets there first. | medium; not executed | ResultRoute.PageFailsWithoutResults | ResultRoute.PageIntendedShows |

=== FILE: js_strings.dfy ===
/** The JavaScript string primitives the application relies on, with their
    ECMAScript semantics spelled out: `indexOf`, `replace` with a string
    pattern (first occurrence only), `endsWith`, the first field of a
    `split` on a character class, and the decimal rendering of a
    non-negative integer inside a template literal.

    A string is a sequence of Unicode scalar values and `|s|` stands for
    `s.length`. JavaScript counts UTF-16 code units instead, so lengths and
    positions agree with JavaScript's only for strings with no character
    outside the Basic Multilingual Plane. */
module JsStrings {
  import opened Wrappers

  /** `p` occurs in `s` starting at index `i`. */
  predicate OccursAt(s: string, p: string, i: nat)
  {
    i + |p| <= |s| && s[i..i + |p|] == p
  }

  /** `i` is the index of the first occurrence of `p` in `s`. */
  predicate FirstOccurrence(s: string, p: string, i: nat)
  {
    OccursAt(s, p, i) && forall j: nat :: j < i ==> !OccursAt(s, p, j)
  }

  /** `p` occurs nowhere in `s`. */
  predicate Absent(s: string, p: string)
  {
    forall j: nat :: j <= |s| ==> !OccursAt(s, p, j)
  }

  /** `s.indexOf(p, from)`, with `None` for JavaScript's -1: the scan
      tries each start position from `from` upwards. */
  function IndexOfFrom(s: string, p: string, from: nat): (r: Option<nat>)
    ensures r.Some? ==> from <= r.value && r.value + |p| <= |s|
    decreases |s| - from
  {
    if from + |p| > |s| then None
    else if s[from..from + |p|] == p then Some(from)
    else IndexOfFrom(s, p, from + 1)
  }

  /** The scan finds the first occurrence at or after `from`, and reports
      `None` only when there is none. */
  lemma {:induction false} IndexOfFromFindsFirst(s: string, p: string, from: nat)
    ensures var r := IndexOfFrom(s, p, from);
            && (r.Some? ==> from <= r.value && OccursAt(s, p, r.value))
            && (r.Some? ==> forall j: nat :: from <= j < r.value ==> !OccursAt(s, p, j))
            && (r.None? ==> forall j: nat :: from <= j ==> !OccursAt(s, p, j))
    decreases |s| - from
  {
    if from + |p| <= |s| && s[from..from + |p|] != p {
      IndexOfFromFindsFirst(s, p, from + 1);
    }
  }

  /** `s.indexOf(p)`. */
  function IndexOf(s: string, p: string): (r: Option<nat>)
    ensures r.Some? ==> r.value + |p| <= |s|
  {
    IndexOfFrom(s, p, 0)
  }

  /** `indexOf` reports the first occurrence of `p`, and `None` only when
      `p` occurs nowhere. */
  lemma IndexOfFindsFirst(s: string, p: string)
    ensures IndexOf(s, p).Some? ==> FirstOccurrence(s, p, IndexOf(s, p).value)
    ensures IndexOf(s, p).None? ==> Absent(s, p)
  {
    IndexOfFromFindsFirst(s, p, 0);
  }

  /** `s.replace(p, '')`. */
  function RemoveFirst(s: string, p: string): string
  {
    match IndexOf(s, p)
    case None => s
    case Some(i) => s[..i] + s[i + |p|..]
  }

  /** A string pattern replaces only its first occurrence. */
  lemma RemoveFirstOccurrence(s: string, p: string, i: nat)
    requires FirstOccurrence(s, p, i)
    ensures RemoveFirst(s, p) == s[..i] + s[i + |p|..]
  {
    IndexOfFindsFirst(s, p);
  }

  /** When `p` does not occur, `s` comes back unchanged. */
  lemma RemoveFirstAbsent(s: string, p: string)
    requires Absent(s, p)
    ensures RemoveFirst(s, p) == s
  {
    IndexOfFindsFirst(s, p);
  }

  /** `s.endsWith(suffix)`. */
  predicate EndsWith(s: string, suffix: string)
  {
    |suffix| <= |s| && s[|s| - |suffix|..] == suffix
  }

  /** `s.split(/[...]/)[0]`: the text before the first character of `s` that
      belongs to `seps`, or all of `s` when none does. */
  function BeforeAny(s: string, seps: set<char>): (r: string)
    ensures r <= s
    ensures forall k :: 0 <= k < |r| ==> r[k] !in seps
    ensures |r| < |s| ==> s[|r|] in seps
  {
    if |s| == 0 || s[0] in seps then ""
    else [s[0]] + BeforeAny(s[1..], seps)
  }

  /** The character of decimal digit `d`. */
  function DigitChar(d: nat): (c: char)
    requires d < 10
    ensures '0' <= c <= '9'
  {
    ('0' as int + d) as char
  }

  predicate IsDigits(s: string)
  {
    forall k :: 0 <= k < |s| ==> '0' <= s[k] <= '9'
  }

  /** The number a string of decimal digits denotes. */
  function DigitsValue(s: string): nat
    requires IsDigits(s)
  {
    if |s| == 0 then 0
    else 10 * DigitsValue(s[..|s| - 1]) + (s[|s| - 1] as int - '0' as int)
  }

  /** `${n}` for a non-negative integer `n`: its decimal digits, with no
      leading zero. */
  function DecimalString(n: nat): (r: string)
    ensures |r| >= 1 && IsDigits(r)
    ensures r[0] == '0' ==> n == 0
    decreases n
  {
    if n < 10 then [DigitChar(n)]
    else DecimalString(n / 10) + [DigitChar(n % 10)]
  }

  /** Reading the decimal rendering of `n` back gives `n`. */
  lemma {:induction false} DecimalRoundTrip(n: nat)
    ensures DigitsValue(DecimalString(n)) == n
    decreases n
  {
    if n >= 10 {
      DecimalRoundTrip(n / 10);
      var s := DecimalString(n);
      assert s[..|s| - 1] == DecimalString(n / 10);
    }
  }

  /** Removing a pattern that starts the string strips that prefix. */
  lemma RemoveFirstPrefix(s: string, p: string)
    requires p <= s
    ensures RemoveFirst(s, p) == s[|p|..]
  {
    assert OccursAt(s, p, 0);
    RemoveFirstOccurrence(s, p, 0);
  }

  /** The first field of a split is the separator-free text in front of the
      first separator. */
  lemma {:induction false} BeforeAnySplit(a: string, b: string, seps: set<char>)
    requires forall k :: 0 <= k < |a| ==> a[k] !in seps
    requires b == [] || b[0] in seps
    ensures BeforeAny(a + b, seps) == a
    decreases |a|
  {
    if a != [] {
      assert (a + b)[1..] == a[1..] + b;
      BeforeAnySplit(a[1..], b, seps);
    }
  }

  // ---------------------------------------------------------------------
  // Stepping `indexOf` over concrete strings, one stretch at a time

  /** `indexOf` moves past a position where the pattern disagrees with `s`. */
  lemma IndexOfSkipMismatch(s: string, p: string, lo: int, k: int)
    requires 0 <= lo && lo + |p| <= |s| && 0 <= k < |p| && s[lo + k] != p[k]
    ensures IndexOfFrom(s, p, lo) == IndexOfFrom(s, p, lo + 1)
  {
    assert s[lo..lo + |p|][k] == s[lo + k];
  }

  /** `indexOf` moves past every position whose character differs from the
      pattern's first one. */
  lemma {:induction false} IndexOfSkipStretch(s: string, p: string, lo: int, hi: int)
    requires 0 <= lo <= hi <= |s| && |p| > 0 && p[0] !in s[lo..hi]
    ensures IndexOfFrom(s, p, lo) == IndexOfFrom(s, p, hi)
    decreases hi - lo
  {
    if lo < hi {
      if lo + |p| <= |s| {
        assert s[lo..hi][0] == s[lo];
        assert s[lo..lo + |p|][0] == s[lo];
      }
      assert s[lo + 1..hi] == s[lo..hi][1..];
      IndexOfSkipStretch(s, p, lo + 1, hi);
    }
  }

  /** The same, for the stretch `b` of `s == a + b + c`. */
  lemma IndexOfSkipPiece(s: string, p: string, a: string, b: string, c: string)
    requires s == a + b + c && |p| > 0 && p[0] !in b
    ensures IndexOfFrom(s, p, |a|) == IndexOfFrom(s, p, |a| + |b|)
  {
    assert s[|a|..|a| + |b|] == b;
    IndexOfSkipStretch(s, p, |a|, |a| + |b|);
  }

  /** Removing an occurrence that `indexOf` reports as the first one. */
  lemma RemoveFirstFound(s: string, p: string, a: string, b: string)
    requires s == a + p + b && IndexOf(s, p) == Some(|a|)
    ensures RemoveFirst(s, p) == a + b
  {
    assert s[..|a|] == a && s[|a| + |p|..] == b;
  }

  /** An occurrence in `t` is an occurrence in `x + t`, shifted by `|x|`. */
  lemma OccursShift(x: string, t: string, p: string, j: nat)
    ensures OccursAt(x + t, p, |x| + j) <==> OccursAt(t, p, j)
  {
    if j + |p| <= |t| {
      assert (x + t)[|x| + j..|x| + j + |p|] == t[j..j + |p|];
    }
  }

  /** When `p` starts nowhere inside `x`, the first occurrence of `p` in
      `x + t` lies in `t`, and removing it leaves `x` alone. */
  lemma RemoveFirstAfter(x: string, t: string, p: string)
    requires forall j: nat :: j < |x| ==> !OccursAt(x + t, p, j)
    ensures RemoveFirst(x + t, p) == x + RemoveFirst(t, p)
  {
    IndexOfFindsFirst(t, p);
    match IndexOf(t, p)
    case None => RemoveFirstAfterAbsent(x, t, p);
    case Some(i) =>
      RemoveFirstOccurrence(t, p, i);
      RemoveFirstAfterFound(x, t, p, i);
  }

  lemma RemoveFirstAfterAbsent(x: string, t: string, p: string)
    requires forall j: nat :: j < |x| ==> !OccursAt(x + t, p, j)
    requires Absent(t, p)
    ensures RemoveFirst(x + t, p) == x + t
  {
    forall j: nat | j <= |x + t|
      ensures !OccursAt(x + t, p, j)
    {
      if j >= |x| {
        OccursShift(x, t, p, j - |x|);
      }
    }
    RemoveFirstAbsent(x + t, p);
    RemoveFirstAbsent(t, p);
  }

  lemma RemoveFirstAfterFound(x: string, t: string, p: string, i: nat)
    requires forall j: nat :: j < |x| ==> !OccursAt(x + t, p, j)
    requires FirstOccurrence(t, p, i)
    ensures RemoveFirst(x + t, p) == x + t[..i] + t[i + |p|..]
  {
    var s := x + t;
    OccursShift(x, t, p, i);
    forall j: nat | j < |x| + i
      ensures !OccursAt(s, p, j)
    {
      if j >= |x| {
        OccursShift(x, t, p, j - |x|);
      }
    }
    assert FirstOccurrence(s, p, |x| + i);
    RemoveFirstOccurrence(s, p, |x| + i);
    assert s[..|x| + i] == x + t[..i];
    assert s[|x| + i + |p|..] == t[i + |p|..];
  }

  /** Removing a pattern that does not start `t` keeps `t`'s first character. */
  lemma RemoveFirstKeepsHead(t: string, p: string)
    requires t != [] && !OccursAt(t, p, 0)
    ensures RemoveFirst(t, p) != [] && RemoveFirst(t, p)[0] == t[0]
  {
    IndexOfFindsFirst(t, p);
  }
}

=== FILE: openai.dfy ===
/** `summarizeSearchResults`: the prompt built from a query and the search
    results' snippets, the one-message request sent to the chat model, and
    the check on the role of the reply.

    The chat model is not modelled: it is the parameter `model`, a function
    from the request to the reply message or to the reason the call failed. */
module OpenAi {
  import opened Wrappers
  import opened JsStrings
  import opened SearchResults

  /** The model the client is configured with. */
  const ModelId: string := "gpt-3.5-turbo-1106"

  /** The text of the prompt before and after the quoted query. */
  const Opening: string := "Answer the question \""
  const Closing: string := "\" as if you are an expert in the field. Use the following search results to inform your response, but do not reference the search results in your answer. Provide a clear and concise response:\n\n"

  datatype Role = System | User | Assistant | Tool | Function

  datatype ChatMessage = ChatMessage(role: Role, content: string)

  datatype ChatRequest = ChatRequest(model: string, messages: seq<ChatMessage>)

  /** The chat completion call: the reply message, or why the call failed. */
  type ChatModel = ChatRequest -> Result<ChatMessage, string>

  datatype SummaryError =
    | ResultsNotAnArray          // `forEach` on `undefined` throws a TypeError
    | ModelFailed(reason: string)
    | ExpectedAssistantMessage

  /** The fixed opening of the prompt, with the query in double quotes. */
  function Preamble(query: string): (r: string)
    ensures |r| == |Opening| + |query| + |Closing|
    ensures r[..|Opening|] == Opening && r[|r| - |Closing|..] == Closing
    ensures r[|Opening|..|r| - |Closing|] == query
    ensures EndsWith(r, ":\n\n")
  {
    Opening + query + Closing
  }

  /** The query a preamble quotes, if `p` is a preamble at all. */
  function QueryOf(p: string): Option<string>
  {
    if |Opening| + |Closing| <= |p| && p[..|Opening|] == Opening && p[|p| - |Closing|..] == Closing
    then Some(p[|Opening|..|p| - |Closing|])
    else None
  }

  /** The query can be read back from the preamble. */
  lemma QueryRoundTrip(query: string)
    ensures QueryOf(Preamble(query)) == Some(query)
  {
  }

  /** The line added for the result at index `i`, numbered from 1. */
  function ResultLine(i: nat, snippet: string): string
  {
    "Result " + DecimalString(i + 1) + ": " + snippet + "\n"
  }

  /** The lines for `rs`, in order. */
  function Lines(rs: seq<SearchResult>): string
  {
    if rs == [] then ""
    else Lines(rs[..|rs| - 1]) + ResultLine(|rs| - 1, rs[|rs| - 1].snippet)
  }

  /** The whole prompt. */
  function Prompt(query: string, rs: seq<SearchResult>): string
  {
    Preamble(query) + Lines(rs)
  }

  /** The prompt as the source builds it: the preamble, then one line per
      result appended in turn. */
  method BuildPrompt(query: string, rs: seq<SearchResult>) returns (prompt: string)
    ensures prompt == Prompt(query, rs)
  {
    prompt := Opening + query + Closing;
    var index := 0;
    while index < |rs|
      invariant 0 <= index <= |rs|
      invariant prompt == Preamble(query) + Lines(rs[..index])
    {
      assert rs[..index + 1][..index] == rs[..index];
      prompt := prompt + "Result " + DecimalString(index + 1) + ": " + rs[index].snippet + "\n";
      index := index + 1;
    }
    assert rs[..index] == rs;
  }

  /** Without results the prompt is the preamble alone. */
  lemma PromptOfNoResults(query: string)
    ensures Prompt(query, []) == Preamble(query)
  {
  }

  /** One more result extends the prompt by exactly its line, numbered one
      past the results before it. */
  lemma PromptExtends(query: string, rs: seq<SearchResult>, r: SearchResult)
    ensures Prompt(query, rs + [r]) == Prompt(query, rs) + ResultLine(|rs|, r.snippet)
  {
    assert (rs + [r])[..|rs|] == rs;
  }

  /** The prompt for the first `k` results is a prefix of the prompt, and the
      line that follows it is the line of result `k`, numbered `k + 1`. */
  lemma {:induction false} PromptPrefix(query: string, rs: seq<SearchResult>, k: nat)
    requires k < |rs|
    ensures Prompt(query, rs[..k]) + ResultLine(k, rs[k].snippet) == Prompt(query, rs[..k + 1])
    ensures Prompt(query, rs[..k + 1]) <= Prompt(query, rs)
    decreases |rs| - k
  {
    PromptExtends(query, rs[..k], rs[k]);
    assert rs[..k] + [rs[k]] == rs[..k + 1];
    if k + 1 < |rs| {
      PromptPrefix(query, rs, k + 1);
    } else {
      assert rs[..k + 1] == rs;
    }
  }

  /** The line of result `i` begins with `Result `, then the decimal digits
      of `i + 1`, then `: `. */
  lemma LineLabel(i: nat, snippet: string)
    ensures var line := ResultLine(i, snippet);
            var n := |DecimalString(i + 1)|;
            && line[..7] == "Result "
            && IsDigits(line[7..7 + n]) && DigitsValue(line[7..7 + n]) == i + 1
            && line[7 + n..9 + n] == ": "
  {
    var d := DecimalString(i + 1);
    var line := ResultLine(i, snippet);
    assert line == "Result " + d + ": " + snippet + "\n";
    assert line[7..7 + |d|] == d;
    DecimalRoundTrip(i + 1);
  }

  /** The request sent: the configured model and one user message holding
      the prompt. */
  function Request(query: string, rs: seq<SearchResult>): ChatRequest
  {
    ChatRequest(ModelId, [ChatMessage(User, Prompt(query, rs))])
  }

  /** Only an assistant reply yields text, and then its content unchanged. */
  function ExtractAnswer(message: ChatMessage): (r: Result<string, SummaryError>)
    ensures r.Success? <==> message.role == Assistant
    ensures r.Success? ==> r.value == message.content
    ensures r.Failure? ==> r.error == ExpectedAssistantMessage
  {
    if message.role.Assistant? then Success(message.content)
    else Failure(ExpectedAssistantMessage)
  }

  /** The request `summarizeSearchResults` sends, if it gets that far:
      `undefined` results make `forEach` throw before any call. */
  function SentRequest(query: string, searchResults: Option<seq<SearchResult>>): (r: Option<ChatRequest>)
    ensures r.Some? <==> searchResults.Some?
  {
    match searchResults
    case None => None
    case Some(rs) => Some(Request(query, rs))
  }

  /** `summarizeSearchResults({query, searchResults})`. */
  function Summarize(query: string, searchResults: Option<seq<SearchResult>>, model: ChatModel)
    : (r: Result<string, SummaryError>)
    ensures searchResults.None? ==> r == Failure(ResultsNotAnArray)
    ensures r.Success? ==>
      && searchResults.Some?
      && model(Request(query, searchResults.value)) == Success(ChatMessage(Assistant, r.value))
  {
    match searchResults
    case None => Failure(ResultsNotAnArray)
    case Some(rs) =>
      match model(Request(query, rs))
      case Failure(reason) => Failure(ModelFailed(reason))
      case Success(message) => ExtractAnswer(message)
  }

  /** An assistant reply to the request is the summary; a reply in any other
      role is an error, whatever its content. */
  lemma SummarizeReply(query: string, rs: seq<SearchResult>, model: ChatModel, reply: ChatMessage)
    requires model(Request(query, rs)) == Success(reply)
    ensures reply.role == Assistant ==> Summarize(query, Some(rs), model) == Success(reply.content)
    ensures reply.role != Assistant ==> Summarize(query, Some(rs), model) == Failure(ExpectedAssistantMessage)
  {
  }
}

=== FILE: result_route.dfy ===
/** The `/result` route: its loader, its follow-up action, and the shaping of
    the page from their data.

    The search engine and the chat model are parameters. Each run of the
    loader or the action reports the outbound calls it made, in order, so
    that a call it skips is observable. */
module ResultRoute {
  import opened Wrappers
  import opened SearchResults
  import opened OpenAi
  import opened TextUtil
  import opened UrlUtil
  import opened ValidationUtil

  /** The kinds of result handed to the summarizer. */
  const SummarizableKinds: set<string> := {"knowledge_graph", "organic_result", "answer_box"}

  /** The kinds of result whose thumbnail is shown as a related image. */
  const ImageKinds: set<string> := {"answer_box", "top_stories"}

  /** How many results the page lists. */
  const TopCount: nat := 5

  /** `searchGoogle(query)`: the `organic_results` of the response, which may
      be absent, or why the request failed. */
  type SearchEngine = string -> Result<Option<seq<SearchResult>>, string>

  datatype Call = SearchCall(query: string) | ChatCall(request: ChatRequest)

  datatype PipelineError = SearchFailed(reason: string) | SummaryFailed(error: SummaryError)

  /** The data a route hands to the page. `summary` is the loader's deferred
      promise, settled, or the action's awaited text. */
  datatype PageData = PageData(
    q: Option<string>,
    searchResults: Option<seq<SearchResult>>,
    summary: Result<string, SummaryError>)

  /** The data or the error a run ends with, and the calls it made. */
  datatype Run = Run(data: Result<PageData, PipelineError>, calls: seq<Call>)

  // ---------------------------------------------------------------------
  // Filtering for the summary

  predicate Summarizable(sr: SearchResult)
  {
    sr.kind.Some? && sr.kind.value in SummarizableKinds
  }

  /** `rs.filter(sr => kinds.includes(sr?.kind))`. */
  function ForSummary(rs: seq<SearchResult>): (r: seq<SearchResult>)
    ensures |r| <= |rs|
    ensures forall k :: 0 <= k < |r| ==> Summarizable(r[k])
  {
    if rs == [] then []
    else (if Summarizable(rs[0]) then [rs[0]] else []) + ForSummary(rs[1..])
  }

  /** Filtering distributes over concatenation, so relative order is kept. */
  lemma {:induction false} ForSummaryAppend(a: seq<SearchResult>, b: seq<SearchResult>)
    ensures ForSummary(a + b) == ForSummary(a) + ForSummary(b)
    decreases |a|
  {
    if a == [] {
      assert a + b == b;
    } else {
      assert (a + b)[1..] == a[1..] + b;
      ForSummaryAppend(a[1..], b);
    }
  }

  /** A result reaches the summarizer exactly when it is among the results
      and its kind is summarizable. */
  lemma {:induction false} ForSummaryMembers(rs: seq<SearchResult>, x: SearchResult)
    ensures x in ForSummary(rs) <==> x in rs && Summarizable(x)
    decreases |rs|
  {
    if rs != [] {
      ForSummaryMembers(rs[1..], x);
      assert rs == [rs[0]] + rs[1..];
    }
  }

  /** `searchResults?.filter(...)`. */
  function ForSummaryOf(searchResults: Option<seq<SearchResult>>): (r: Option<seq<SearchResult>>)
    ensures r.Some? <==> searchResults.Some?
  {
    match searchResults
    case None => None
    case Some(rs) => Some(ForSummary(rs))
  }

  // ---------------------------------------------------------------------
  // Related images

  /** `sr?.thumbnail && (kind is answer_box or top_stories)`: a present,
      non-empty thumbnail on a result of an image kind. */
  predicate ShowsImage(sr: SearchResult)
  {
    sr.thumbnail.Some? && sr.thumbnail.value != ""
    && sr.kind.Some? && sr.kind.value in ImageKinds
  }

  /** The `reduce` in `getRelatedImages`, from accumulator `acc`. */
  function CollectImages(acc: seq<string>, rs: seq<SearchResult>): seq<string>
    decreases |rs|
  {
    if rs == [] then acc
    else CollectImages(if ShowsImage(rs[0]) then acc + [rs[0].thumbnail.value] else acc, rs[1..])
  }

  /** `getRelatedImages(searchResults)`: `undefined` when the results are. */
  function RelatedImages(searchResults: Option<seq<SearchResult>>): Option<seq<string>>
  {
    match searchResults
    case None => None
    case Some(rs) => Some(CollectImages([], rs))
  }

  /** The thumbnails the page shows, in the order of the results. */
  function Thumbnails(rs: seq<SearchResult>): (r: seq<string>)
    ensures |r| <= |rs|
  {
    if rs == [] then []
    else (if ShowsImage(rs[0]) then [rs[0].thumbnail.value] else []) + Thumbnails(rs[1..])
  }

  /** The fold appends to its accumulator exactly the thumbnails, in order. */
  lemma {:induction false} CollectImagesIsThumbnails(acc: seq<string>, rs: seq<SearchResult>)
    ensures CollectImages(acc, rs) == acc + Thumbnails(rs)
    decreases |rs|
  {
    if rs != [] {
      var acc' := if ShowsImage(rs[0]) then acc + [rs[0].thumbnail.value] else acc;
      CollectImagesIsThumbnails(acc', rs[1..]);
    }
  }

  /** A thumbnail is shown exactly when some result of an image kind carries
      it, non-empty; there are never more images than results. */
  lemma {:induction false} ThumbnailsMembers(rs: seq<SearchResult>, t: string)
    ensures t in Thumbnails(rs) <==>
      exists k :: 0 <= k < |rs| && ShowsImage(rs[k]) && rs[k].thumbnail.value == t
    decreases |rs|
  {
    if rs != [] {
      ThumbnailsMembers(rs[1..], t);
      if t in Thumbnails(rs[1..]) {
        var k :| 0 <= k < |rs[1..]| && ShowsImage(rs[1..][k]) && rs[1..][k].thumbnail.value == t;
        assert rs[k + 1] == rs[1..][k];
      }
      if exists k :: 0 <= k < |rs| && ShowsImage(rs[k]) && rs[k].thumbnail.value == t {
        var k :| 0 <= k < |rs| && ShowsImage(rs[k]) && rs[k].thumbnail.value == t;
        if k > 0 {
          assert rs[1..][k - 1] == rs[k];
        }
      }
    }
  }

  /** `getRelatedImages` over results that are present gives their
      thumbnails, no more of them than there are results. */
  lemma RelatedImagesOfResults(rs: seq<SearchResult>)
    ensures RelatedImages(Some(rs)) == Some(Thumbnails(rs))
    ensures |RelatedImages(Some(rs)).value| <= |rs|
  {
    var none: seq<string> := [];
    CollectImagesIsThumbnails(none, rs);
    assert none + Thumbnails(rs) == Thumbnails(rs);
  }

  // ---------------------------------------------------------------------
  // The listed results

  /** `searchResults?.slice(0, 5) || []`. */
  function TopResults(searchResults: Option<seq<SearchResult>>): (r: seq<SearchResult>)
    ensures searchResults.None? ==> r == []
    ensures searchResults.Some? ==>
      && |r| == (if |searchResults.value| < TopCount then |searchResults.value| else TopCount)
      && r <= searchResults.value
  {
    match searchResults
    case None => []
    case Some(rs) => if |rs| <= TopCount then rs else rs[..TopCount]
  }

  /** Results beyond the fifth never change the listing. */
  lemma TopResultsIgnoreTheRest(rs: seq<SearchResult>, more: seq<SearchResult>)
    requires TopCount <= |rs|
    ensures TopResults(Some(rs + more)) == TopResults(Some(rs))
  {
    assert (rs + more)[..TopCount] == rs[..TopCount];
  }

  /** One listed result: its truncated title and its shortened link. */
  datatype Item = Item(title: string, domain: string)

  /** The listing: `truncate(result?.title || '')` and
      `getHostname(result?.link || '')` for each top result. */
  function Items(parse: UrlParser, top: seq<SearchResult>): (r: seq<Item>)
    ensures |r| == |top|
    ensures forall k :: 0 <= k < |r| ==> |r[k].title| <= Length
  {
    if top == [] then []
    else [Item(Truncate(top[0].title), GetHostname(parse, top[0].link))] + Items(parse, top[1..])
  }

  /** Item `k` shows the title and the site of result `k`. */
  lemma {:induction false} ItemsShowResults(parse: UrlParser, top: seq<SearchResult>, k: int)
    requires 0 <= k < |top|
    ensures Items(parse, top)[k] == Item(Truncate(top[k].title), GetHostname(parse, top[k].link))
    decreases k
  {
    if k > 0 {
      ItemsShowResults(parse, top[1..], k - 1);
    }
  }

  // ---------------------------------------------------------------------
  // Loader and action

  /** The calls that summarizing makes: a chat call, unless the results are
      `undefined`. */
  function ChatCalls(query: string, filtered: Option<seq<SearchResult>>): seq<Call>
  {
    match SentRequest(query, filtered)
    case None => []
    case Some(request) => [ChatCall(request)]
  }

  /** The search, then the summary over the summarizable results. */
  function SearchAndSummarize(query: string, search: SearchEngine, model: ChatModel)
    : (r: Run)
    ensures |r.calls| >= 1 && r.calls[0] == SearchCall(query)
    ensures r.data.Success? ==> r.data.value.q == Some(query)
  {
    match search(query)
    case Failure(reason) => Run(Failure(SearchFailed(reason)), [SearchCall(query)])
    case Success(results) =>
      var filtered := ForSummaryOf(results);
      Run(Success(PageData(Some(query), results, Summarize(query, filtered, model))),
          [SearchCall(query)] + ChatCalls(query, filtered))
  }

  /** `loader`: a missing or empty `q` short-circuits with no results, an
      empty summary and no call at all. Otherwise the search runs and its
      full, unfiltered results are returned with the summary, whose failure
      settles the deferred summary but not the loader. */
  function Loader(q: Option<string>, search: SearchEngine, model: ChatModel): (r: Run)
    ensures q.None? || q.value == "" ==>
      r == Run(Success(PageData(q, Some([]), Success(""))), [])
    ensures q.Some? && q.value != "" ==> |r.calls| >= 1 && r.calls[0] == SearchCall(q.value)
  {
    if q.None? || q.value == "" then Run(Success(PageData(q, Some([]), Success(""))), [])
    else SearchAndSummarize(q.value, search, model)
  }

  /** The query text of the follow-up form: `${formData.get('followup')}`
      renders a missing field as `null`. */
  function FollowupQuery(followup: Option<string>): string
  {
    match followup
    case None => "null"
    case Some(text) => text
  }

  /** `action`: the search always runs, even for an empty query, and the
      summary is awaited, so its failure fails the action. */
  function Action(followup: Option<string>, search: SearchEngine, model: ChatModel): (r: Run)
    ensures |r.calls| >= 1 && r.calls[0] == SearchCall(FollowupQuery(followup))
    ensures r.data.Success? ==> r.data.value.summary.Success?
  {
    var run := SearchAndSummarize(FollowupQuery(followup), search, model);
    if run.data.Success? && run.data.value.summary.Failure? then
      Run(Failure(SummaryFailed(run.data.value.summary.error)), run.calls)
    else run
  }

  /** When the search succeeds, the loader's results are exactly the search's
      results and the summary is over the summarizable ones. */
  lemma LoaderPassesResults(q: string, search: SearchEngine, model: ChatModel,
                            results: Option<seq<SearchResult>>)
    requires q != "" && search(q) == Success(results)
    ensures var r := Loader(Some(q), search, model);
            && r.data.Success?
            && r.data.value.searchResults == results
            && r.data.value.summary == Summarize(q, ForSummaryOf(results), model)
  {
  }

  /** The empty query the loader short-circuits is searched by the action. */
  lemma ActionHasNoShortCircuit(search: SearchEngine, model: ChatModel)
    ensures Loader(Some(""), search, model).calls == []
    ensures Action(Some(""), search, model).calls[0] == SearchCall("")
  {
  }

  /** A summary the action returns is the assistant's reply to the prompt
      over the summarizable results. */
  lemma ActionSummaryFromAssistant(followup: Option<string>, search: SearchEngine, model: ChatModel)
    requires Action(followup, search, model).data.Success?
    ensures var query := FollowupQuery(followup);
            var d := Action(followup, search, model).data.value;
            && search(query).Success?
            && d.searchResults == search(query).value
            && d.searchResults.Some?
            && model(Request(query, ForSummary(d.searchResults.value)))
               == Success(ChatMessage(Assistant, d.summary.value))
  {
  }

  // ---------------------------------------------------------------------
  // Choosing the data to show

  /** The keys of the action's data once serialised to JSON: a key whose
      value is `undefined` is dropped. */
  function JsonKeys(d: PageData): seq<string>
  {
    (if d.q.Some? then ["q"] else [])
    + (if d.searchResults.Some? then ["searchResults"] else [])
    + ["summary"]
  }

  /** `actionData && Object.keys(actionData).length > 0`. */
  predicate IsFollowup(actionData: Option<PageData>)
  {
    actionData.Some? && |JsonKeys(actionData.value)| > 0
  }

  /** The action's data is never an empty object, so the page shows it as
      soon as there is any. */
  lemma FollowupWhenActionData(actionData: Option<PageData>)
    ensures IsFollowup(actionData) <==> actionData.Some?
    ensures actionData.Some? ==> !IsEmpty(PlainObject(JsonKeys(actionData.value)))
  {
  }

  /** `isFollowup ? actionData : data`. */
  function SelectPageData(loaderData: PageData, actionData: Option<PageData>): (r: PageData)
    ensures actionData.Some? ==> r == actionData.value
    ensures actionData.None? ==> r == loaderData
  {
    if IsFollowup(actionData) then actionData.value else loaderData
  }

  // ---------------------------------------------------------------------
  // Shaping the page

  /** What the page shows: the query, the listing, the related images and
      the summary. */
  datatype View = View(
    q: Option<string>,
    items: seq<Item>,
    relatedImages: seq<string>,
    summary: Result<string, SummaryError>)

  /** `relatedImages.length` throws a TypeError when `getRelatedImages`
      returns `undefined`. */
  datatype RenderError = RelatedImagesUndefined

  /** The page as written: it reads `relatedImages.length` without a
      fallback for `undefined` results. */
  function Page(parse: UrlParser, loaderData: PageData, actionData: Option<PageData>)
    : (r: Result<View, RenderError>)
    ensures r.Success? <==> SelectPageData(loaderData, actionData).searchResults.Some?
  {
    var d := SelectPageData(loaderData, actionData);
    match RelatedImages(d.searchResults)
    case None => Failure(RelatedImagesUndefined)
    case Some(images) => Success(View(d.q, Items(parse, TopResults(d.searchResults)), images, d.summary))
  }

  /** A search whose response has no organic results makes the page throw:
      the listing falls back to `[]`, the related images do not. */
  lemma PageFailsWithoutResults(parse: UrlParser, q: string, summary: Result<string, SummaryError>)
    ensures Page(parse, PageData(Some(q), None, summary), None) == Failure(RelatedImagesUndefined)
    ensures TopResults(None) == []
  {
  }

  /** The page as evidently meant: absent results show no related images,
      as they show no listing. Everything else is as in `Page`. */
  function PageIntended(parse: UrlParser, loaderData: PageData, actionData: Option<PageData>): View
  {
    var d := SelectPageData(loaderData, actionData);
    var images := match RelatedImages(d.searchResults)
      case None => []
      case Some(images) => images;
    View(d.q, Items(parse, TopResults(d.searchResults)), images, d.summary)
  }

  /** The intended page shows at most five items, item `k` from result `k`,
      and only thumbnails of image kinds; it agrees with the page as written
      whenever that does not throw. */
  lemma PageIntendedShows(parse: UrlParser, loaderData: PageData, actionData: Option<PageData>)
    ensures var d := SelectPageData(loaderData, actionData);
            var v := PageIntended(parse, loaderData, actionData);
            && v.q == d.q
            && |v.items| <= TopCount
            && (d.searchResults.Some? ==> v.relatedImages == Thumbnails(d.searchResults.value))
            && (d.searchResults.None? ==> v.items == [] && v.relatedImages == [])
    ensures var d := SelectPageData(loaderData, actionData);
            var v := PageIntended(parse, loaderData, actionData);
            forall k :: 0 <= k < |v.items| ==>
              && k < |d.searchResults.value|
              && v.items[k] == Item(Truncate(d.searchResults.value[k].title),
                                    GetHostname(parse, d.searchResults.value[k].link))
    ensures Page(parse, loaderData, actionData).Success? ==>
      Page(parse, loaderData, actionData).value == PageIntended(parse, loaderData, actionData)
  {
    var d := SelectPageData(loaderData, actionData);
    if d.searchResults.Some? {
      RelatedImagesOfResults(d.searchResults.value);
      var top := TopResults(d.searchResults);
      forall k | 0 <= k < |top|
        ensures Items(parse, top)[k] == Item(Truncate(top[k].title), GetHostname(parse, top[k].link))
      {
        ItemsShowResults(parse, top, k);
      }
    }
  }

  /** The input that makes the page throw also rejects the summary. A search
      with no organic results hands `undefined` to the summary, whose
      `forEach` throws before any chat call. So the loader's deferred summary
      is rejected, and the action, which awaits it, fails. Loader or action
      data without results always carries that rejection. */
  lemma AbsentResultsRejectSummary(q: Option<string>, followup: Option<string>,
                                   search: SearchEngine, model: ChatModel)
    ensures q.Some? && q.value != "" && search(q.value) == Success(None) ==>
      Loader(q, search, model)
        == Run(Success(PageData(q, None, Failure(ResultsNotAnArray))), [SearchCall(q.value)])
    ensures var r := Loader(q, search, model);
      r.data.Success? && r.data.value.searchResults.None? ==>
        r.data.value.summary == Failure(ResultsNotAnArray)
    ensures search(FollowupQuery(followup)) == Success(None) ==>
      Action(followup, search, model).data == Failure(SummaryFailed(ResultsNotAnArray))
    ensures var r := Action(followup, search, model);
      r.data.Success? ==> r.data.value.searchResults.Some?
  {
  }
}

=== FILE: search_result.dfy ===
/** The search result record the result page reads.

    Besides the fields the search client declares, the page reads `kind` and
    `thumbnail`, which a result may lack; both are optional here. */
module SearchResults {
  import opened Wrappers

  datatype SearchResult = SearchResult(
    position: int,
    title: string,
    link: string,
    snippet: string,
    source: string,
    kind: Option<string>,
    thumbnail: Option<string>)
}

=== FILE: text_util.dfy ===
/** Title truncation for the result page's source links. */
module TextUtil {

  /** The longest string that is shown unchanged. */
  const Length: nat := 30
  /** What replaces the cut-off tail. */
  const Omission: string := "..."
  /** How many leading characters a truncated string keeps. */
  const End: int := Length - |Omission|

  /** `truncate(s)`: strings of at most `Length` characters are returned
      as they are; longer ones keep their first `End` characters and end in
      `Omission`, so that the result is exactly `Length` long. */
  function Truncate(s: string): (r: string)
    ensures |r| <= Length
    ensures |s| <= Length ==> r == s
    ensures |s| > Length ==> |r| == Length && r[..End] == s[..End] && r[End..] == Omission
  {
    if Length >= |s| then s
    else if End < 1 then Omission
    else s[..End] + Omission
  }

  /** The guard `end < 1` never fires: `End` is the constant 27. */
  lemma OmissionOnlyBranchUnreachable()
    ensures End == 27 && End >= 1
  {
  }

  /** Truncating twice is the same as truncating once. */
  lemma TruncateIdempotent(s: string)
    ensures Truncate(Truncate(s)) == Truncate(s)
  {
  }

  /** The output agrees with the input on its first `min(|s|, End)` characters. */
  lemma TruncateKeepsPrefix(s: string)
    ensures var n := if |s| < End then |s| else End;
            n <= |Truncate(s)| && Truncate(s)[..n] == s[..n]
  {
  }

  /** A string is left untouched exactly when it fits. */
  lemma TruncateFixedPoints(s: string)
    ensures Truncate(s) == s <==> |s| <= Length
  {
  }
}

=== FILE: url_util.dfy ===
/** Shortening a result's link to the bare site name shown under its title.

    `getHostname` first hands the link to the WHATWG `URL` constructor. That
    parser is not modelled: it is the parameter `parse`, which yields the
    hostname or `None` when the constructor throws. Everything after it is
    exact string manipulation. */
module UrlUtil {
  import opened Wrappers
  import opened JsStrings

  /** The suffixes the parsed path tries to strip, in the order `reduce`
      visits them. */
  const CommonTLDs: seq<string> := [
    ".com", ".org", ".net", ".int", ".edu", ".gov", ".mil", ".arpa",
    ".co.uk", ".org.uk", ".ac.uk", ".gov.uk", ".co.jp", ".gov.au"
  ]

  /** The characters at which the fallback path cuts the link. */
  const Separators: set<char> := {'/', '?', '#'}

  /** The abstract URL parser: the hostname, or `None` when `new URL` throws. */
  type UrlParser = string -> Option<string>

  /** `tlds.reduce(domainReducer(hostname), acc)` with the stripping step as
      a parameter: every entry that `hostname` ends with replaces the
      accumulator by `strip(hostname, entry)`, computed from the hostname and
      not from the accumulator; the other entries leave it alone. */
  function ReduceTlds(hostname: string, tlds: seq<string>, acc: string,
                      strip: (string, string) -> string): string
    decreases |tlds|
  {
    if tlds == [] then acc
    else
      var acc' := if EndsWith(hostname, tlds[0]) then strip(hostname, tlds[0]) else acc;
      ReduceTlds(hostname, tlds[1..], acc', strip)
  }

  /** The stripping step of `domainReducer` as written:
      `hostname.replace(domain, '')`, which removes the FIRST occurrence of
      the domain's text, wherever it is. */
  function RemoveFirstTld(hostname: string, domain: string): string
  {
    RemoveFirst(hostname, domain)
  }

  /** `getHostname(url)` as written. */
  function GetHostname(parse: UrlParser, url: string): string
  {
    match parse(url)
    case Some(hostname) =>
      RemoveFirst(ReduceTlds(hostname, CommonTLDs, hostname, RemoveFirstTld), "www.")
    case None => Fallback(url)
  }

  /** The `catch` branch: drop the first `https://`, then the first
      `http://`, then the first `www.`, and keep the text before the first
      `/`, `?` or `#`. */
  function Fallback(url: string): (r: string)
    ensures var stripped := RemoveFirst(RemoveFirst(RemoveFirst(url, "https://"), "http://"), "www.");
            && r <= stripped
            && (forall k :: 0 <= k < |r| ==> r[k] !in Separators)
            && (|r| < |stripped| ==> stripped[|r|] in Separators)
  {
    BeforeAny(RemoveFirst(RemoveFirst(RemoveFirst(url, "https://"), "http://"), "www."), Separators)
  }

  // ---------------------------------------------------------------------
  // No entry of the TLD list is a suffix of another

  /** No entry of `tlds` is a suffix of another entry. */
  predicate SuffixFree(tlds: seq<string>)
  {
    forall i, j :: 0 <= i < |tlds| && 0 <= j < |tlds| && i != j ==> !EndsWith(tlds[i], tlds[j])
  }

  /** No other entry of `tlds` is a suffix of entry `i`. */
  predicate NoOtherIsSuffix(tlds: seq<string>, i: int)
    requires 0 <= i < |tlds|
  {
    forall j :: 0 <= j < |tlds| && j != i ==> !EndsWith(tlds[i], tlds[j])
  }

  // One proof over all pairs of the fourteen entries exceeds the solver's
  // resource limit, so the list is checked entry by entry instead.
  lemma TldRow0() ensures NoOtherIsSuffix(CommonTLDs, 0) {}
  lemma TldRow1() ensures NoOtherIsSuffix(CommonTLDs, 1) {}
  lemma TldRow2() ensures NoOtherIsSuffix(CommonTLDs, 2) {}
  lemma TldRow3() ensures NoOtherIsSuffix(CommonTLDs, 3) {}
  lemma TldRow4() ensures NoOtherIsSuffix(CommonTLDs, 4) {}
  lemma TldRow5() ensures NoOtherIsSuffix(CommonTLDs, 5) {}
  lemma TldRow6() ensures NoOtherIsSuffix(CommonTLDs, 6) {}
  lemma TldRow7() ensures NoOtherIsSuffix(CommonTLDs, 7) {}
  lemma TldRow8() ensures NoOtherIsSuffix(CommonTLDs, 8) {}
  lemma TldRow9() ensures NoOtherIsSuffix(CommonTLDs, 9) {}
  lemma TldRow10() ensures NoOtherIsSuffix(CommonTLDs, 10) {}
  lemma TldRow11() ensures NoOtherIsSuffix(CommonTLDs, 11) {}
  lemma TldRow12() ensures NoOtherIsSuffix(CommonTLDs, 12) {}
  lemma TldRow13() ensures NoOtherIsSuffix(CommonTLDs, 13) {}

  lemma TldRow(i: int)
    requires 0 <= i < |CommonTLDs|
    ensures NoOtherIsSuffix(CommonTLDs, i)
  {
    if i == 0 { TldRow0(); }
    else if i == 1 { TldRow1(); }
    else if i == 2 { TldRow2(); }
    else if i == 3 { TldRow3(); }
    else if i == 4 { TldRow4(); }
    else if i == 5 { TldRow5(); }
    else if i == 6 { TldRow6(); }
    else if i == 7 { TldRow7(); }
    else if i == 8 { TldRow8(); }
    else if i == 9 { TldRow9(); }
    else if i == 10 { TldRow10(); }
    else if i == 11 { TldRow11(); }
    else if i == 12 { TldRow12(); }
    else { TldRow13(); }
  }

  /** No entry of `CommonTLDs` is a suffix of another. */
  lemma CommonTLDsSuffixFree()
    ensures SuffixFree(CommonTLDs)
  {
    forall i, j | 0 <= i < |CommonTLDs| && 0 <= j < |CommonTLDs| && i != j
      ensures !EndsWith(CommonTLDs[i], CommonTLDs[j])
    {
      TldRow(i);
    }
  }

  /** A suffix-free list has at most one entry that a given hostname ends with. */
  lemma AtMostOneTldMatches(h: string, tlds: seq<string>, i: int, j: int)
    requires SuffixFree(tlds)
    requires 0 <= i < |tlds| && 0 <= j < |tlds|
    requires EndsWith(h, tlds[i]) && EndsWith(h, tlds[j])
    ensures i == j
  {
  }

  // ---------------------------------------------------------------------
  // The reduction over the TLD list

  /** When no entry matches, the reduction returns its seed. */
  lemma {:induction false} ReduceNoMatch(h: string, tlds: seq<string>, acc: string,
                                         strip: (string, string) -> string)
    requires forall t :: t in tlds ==> !EndsWith(h, t)
    ensures ReduceTlds(h, tlds, acc, strip) == acc
    decreases |tlds|
  {
    if tlds != [] {
      assert tlds[0] in tlds;
      ReduceNoMatch(h, tlds[1..], acc, strip);
    }
  }

  /** Dropping the head of a suffix-free list leaves it suffix-free. */
  lemma SuffixFreeTail(tlds: seq<string>)
    requires tlds != [] && SuffixFree(tlds)
    ensures SuffixFree(tlds[1..])
  {
    forall a, b | 0 <= a < |tlds[1..]| && 0 <= b < |tlds[1..]| && a != b
      ensures !EndsWith(tlds[1..][a], tlds[1..][b])
    {
      assert tlds[1..][a] == tlds[a + 1] && tlds[1..][b] == tlds[b + 1];
    }
  }

  /** Over a suffix-free list, the reduction applies `strip` for the one
      entry that matches and ignores every other entry. */
  lemma {:induction false} ReduceUniqueMatch(h: string, tlds: seq<string>, i: int, acc: string,
                                             strip: (string, string) -> string)
    requires SuffixFree(tlds)
    requires 0 <= i < |tlds| && EndsWith(h, tlds[i])
    ensures ReduceTlds(h, tlds, acc, strip) == strip(h, tlds[i])
    decreases |tlds|
  {
    if i == 0 {
      forall t | t in tlds[1..]
        ensures !EndsWith(h, t)
      {
        var j :| 0 <= j < |tlds[1..]| && tlds[1..][j] == t;
        if EndsWith(h, t) {
          AtMostOneTldMatches(h, tlds, 0, j + 1);
        }
      }
      ReduceNoMatch(h, tlds[1..], strip(h, tlds[0]), strip);
    } else {
      if EndsWith(h, tlds[0]) {
        AtMostOneTldMatches(h, tlds, 0, i);
      }
      SuffixFreeTail(tlds);
      ReduceUniqueMatch(h, tlds[1..], i - 1, acc, strip);
    }
  }

  // ---------------------------------------------------------------------
  // Properties of `getHostname` as written

  /** A hostname without a listed suffix only loses its first `www.`. */
  lemma ParsedWithoutTld(parse: UrlParser, url: string, hostname: string)
    requires parse(url) == Some(hostname)
    requires forall t :: t in CommonTLDs ==> !EndsWith(hostname, t)
    ensures GetHostname(parse, url) == RemoveFirst(hostname, "www.")
  {
    ReduceNoMatch(hostname, CommonTLDs, hostname, RemoveFirstTld);
  }

  /** A hostname ending in a listed suffix loses the first occurrence of that
      suffix's text, and then its first `www.`. */
  lemma ParsedWithTld(parse: UrlParser, url: string, hostname: string, i: int)
    requires parse(url) == Some(hostname)
    requires 0 <= i < |CommonTLDs| && EndsWith(hostname, CommonTLDs[i])
    ensures GetHostname(parse, url) == RemoveFirst(RemoveFirst(hostname, CommonTLDs[i]), "www.")
  {
    CommonTLDsSuffixFree();
    ReduceUniqueMatch(hostname, CommonTLDs, i, hostname, RemoveFirstTld);
  }

  lemma GoogleHostWithoutCom(h: string)
    requires h == "www.google.com"
    ensures RemoveFirst(h, ".com") == "www.google"
  {
    IndexOfSkipPiece(h, ".com", "", "www", ".google.com");
    IndexOfSkipMismatch(h, ".com", 3, 1);
    IndexOfSkipPiece(h, ".com", "www.", "google", ".com");
    assert h[10..14] == ".com";
    RemoveFirstFound(h, ".com", "www.google", "");
  }

  lemma GoogleParsedStrips(parse: UrlParser, url: string, h: string)
    requires h == "www.google.com" && parse(url) == Some(h)
    ensures GetHostname(parse, url) == RemoveFirst(RemoveFirst(h, ".com"), "www.")
  {
    assert EndsWith(h, CommonTLDs[0]);
    ParsedWithTld(parse, url, h, 0);
  }

  lemma GoogleHostStripped(h: string)
    requires h == "www.google.com"
    ensures RemoveFirst(RemoveFirst(h, ".com"), "www.") == "google"
  {
    GoogleHostWithoutCom(h);
    var g := RemoveFirst(h, ".com");
    RemoveFirstPrefix(g, "www.");
    assert g[4..] == "google";
  }

  /** `https://www.google.com/search?q=hello`, parsed to `www.google.com`,
      yields `google`. */
  lemma GoogleExample(parse: UrlParser, url: string, h: string)
    requires h == "www.google.com" && parse(url) == Some(h)
    ensures GetHostname(parse, url) == "google"
  {
    GoogleParsedStrips(parse, url, h);
    GoogleHostStripped(h);
  }

  /** An empty link cannot be parsed, so it takes the fallback and yields `""`. */
  lemma EmptyUrl(parse: UrlParser)
    requires parse("") == None
    ensures GetHostname(parse, "") == ""
  {
  }

  // ---------------------------------------------------------------------
  // The fallback path

  /** `x` holds no colon and no separator. */
  predicate PlainHost(x: string)
  {
    ':' !in x && '/' !in x && '?' !in x && '#' !in x
  }

  /** A scheme prefix cannot start inside a colon-free `x` when what follows
      `x` is empty or begins with a separator: every such occurrence would
      put its colon in `x` or a letter of the scheme on the separator. */
  lemma NoSchemeStartsIn(x: string, t: string, p: string)
    requires p == "https://" || p == "http://"
    requires PlainHost(x)
    requires t == [] || t[0] in Separators
    ensures forall j: nat :: j <= |x| ==> !OccursAt(x + t, p, j)
  {
    var s := x + t;
    var c := if p == "https://" then 5 else 4;
    assert p[c] == ':';
    assert forall k :: 0 <= k <= c ==> p[k] !in Separators;
    forall j: nat | j <= |x|
      ensures !OccursAt(s, p, j)
    {
      if j + |p| <= |s| {
        var k := if j + c < |x| then c else |x| - j;
        assert s[j + k] != p[k];
        assert s[j..j + |p|][k] == s[j + k];
      }
    }
  }

  /** `www.` cannot start inside `x` when `x` holds no `www.` and what
      follows `x` is empty or begins with a separator. */
  lemma NoWwwStartsIn(x: string, t: string)
    requires Absent(x, "www.")
    requires t == [] || t[0] in Separators
    ensures forall j: nat :: j <= |x| ==> !OccursAt(x + t, "www.", j)
  {
    var s := x + t;
    forall j: nat | j <= |x|
      ensures !OccursAt(s, "www.", j)
    {
      if j + 4 <= |x| {
        assert s[j..j + 4] == x[j..j + 4];
        assert !OccursAt(x, "www.", j);
      } else if j + 4 <= |s| {
        var k := |x| - j;
        assert s[j + k] != "www."[k];
        assert s[j..j + 4][k] == s[j + k];
      }
    }
  }

  /** Removing a pattern that begins with a letter from text that is empty or
      begins with a separator keeps it empty or beginning with a separator. */
  lemma RemovalKeepsSeparatorHead(t: string, p: string)
    requires t == [] || t[0] in Separators
    requires p != [] && p[0] !in Separators
    ensures var r := RemoveFirst(t, p); r == [] || r[0] in Separators
  {
    if t != [] {
      RemoveFirstKeepsHead(t, p);
    }
  }

  /** One removal step of the fallback on `x + t`, when the pattern cannot
      start inside `x`. */
  lemma FallbackStep(x: string, t: string, p: string)
    requires forall j: nat :: j <= |x| ==> !OccursAt(x + t, p, j)
    requires t == [] || t[0] in Separators
    requires p != [] && p[0] !in Separators
    ensures RemoveFirst(x + t, p) == x + RemoveFirst(t, p)
    ensures var r := RemoveFirst(t, p); r == [] || r[0] in Separators
  {
    RemoveFirstAfter(x, t, p);
    RemovalKeepsSeparatorHead(t, p);
  }

  /** A bare host name followed by a path, query or fragment comes back as
      the host name, TLD included. */
  lemma FallbackOfBareHost(host: string, tail: string)
    requires PlainHost(host) && Absent(host, "www.")
    requires tail == [] || tail[0] in Separators
    ensures Fallback(host + tail) == host
  {
    NoSchemeStartsIn(host, tail, "https://");
    FallbackStep(host, tail, "https://");
    var t1 := RemoveFirst(tail, "https://");
    NoSchemeStartsIn(host, t1, "http://");
    FallbackStep(host, t1, "http://");
    var t2 := RemoveFirst(t1, "http://");
    NoWwwStartsIn(host, t2);
    FallbackStep(host, t2, "www.");
    var t3 := RemoveFirst(t2, "www.");
    BeforeAnySplit(host, t3, Separators);
  }

  lemma HttpsSchemeStripped(host: string, tail: string)
    ensures RemoveFirst("https://www." + host + tail, "https://") == "www." + host + tail
  {
    var url := "https://www." + host + tail;
    assert url == "https://" + ("www." + host + tail);
    RemoveFirstPrefix(url, "https://");
    assert url[8..] == "www." + host + tail;
  }

  lemma HttpSchemeKept(host: string, tail: string)
    requires PlainHost(host)
    requires tail == [] || tail[0] in Separators
    ensures var t2 := RemoveFirst(tail, "http://");
            && RemoveFirst("www." + host + tail, "http://") == "www." + host + t2
            && (t2 == [] || t2[0] in Separators)
  {
    var x := "www." + host;
    assert PlainHost(x);
    NoSchemeStartsIn(x, tail, "http://");
    FallbackStep(x, tail, "http://");
  }

  lemma WwwStripped(host: string, t2: string)
    ensures RemoveFirst("www." + host + t2, "www.") == host + t2
  {
    var s := "www." + host + t2;
    assert s == "www." + (host + t2);
    RemoveFirstPrefix(s, "www.");
    assert s[4..] == host + t2;
  }

  /** An `https://www.` link that the parser rejects comes back as the host
      name between `www.` and the first separator. */
  lemma FallbackOfHttpsWww(host: string, tail: string)
    requires PlainHost(host)
    requires tail == [] || tail[0] in Separators
    ensures Fallback("https://www." + host + tail) == host
  {
    HttpsSchemeStripped(host, tail);
    HttpSchemeKept(host, tail);
    var t2 := RemoveFirst(tail, "http://");
    WwwStripped(host, t2);
    BeforeAnySplit(host, t2, Separators);
  }

  lemma WikipediaHasNoWwwStart(h: string)
    requires h == "wikipedia.org"
    ensures IndexOfFrom(h, "www.", 0) == IndexOfFrom(h, "www.", 1)
  {
    IndexOfSkipMismatch(h, "www.", 0, 1);
  }

  lemma WikipediaHasNoWwwRest(h: string)
    requires h == "wikipedia.org"
    ensures IndexOfFrom(h, "www.", 1) == None
  {
    IndexOfSkipPiece(h, "www.", "w", "ikipedia.org", "");
  }

  /** The fallback does not strip TLDs: `wikipedia.org/wiki/Hello`, which the
      URL constructor rejects for want of a scheme, yields `wikipedia.org`. */
  lemma FallbackKeepsTld(parse: UrlParser, url: string, h: string)
    requires url == "wikipedia.org/wiki/Hello" && h == "wikipedia.org"
    requires parse(url) == None
    ensures GetHostname(parse, url) == h
  {
    WikipediaHasNoWwwStart(h);
    WikipediaHasNoWwwRest(h);
    IndexOfFindsFirst(h, "www.");
    var tail := url[|h|..];
    assert url == h + tail && tail[0] == '/';
    FallbackOfBareHost(h, tail);
  }

  // ---------------------------------------------------------------------
  // The first-occurrence removal of a TLD, and the suffix removal meant

  lemma CompassComAtThree(h: string)
    requires h == "www.compass.com"
    ensures IndexOf(h, ".com") == Some(3)
  {
    IndexOfSkipPiece(h, ".com", "", "www", ".compass.com");
    assert h[3..7] == ".com";
  }

  lemma CompassFirstCom(h: string)
    requires h == "www.compass.com"
    ensures RemoveFirst(h, ".com") == "wwwpass.com"
  {
    CompassComAtThree(h);
    assert h == "www" + ".com" + "pass.com";
    RemoveFirstFound(h, ".com", "www", "pass.com");
  }

  lemma CompassHasNoWww(g: string)
    requires g == "wwwpass.com"
    ensures RemoveFirst(g, "www.") == g
  {
    IndexOfSkipMismatch(g, "www.", 0, 3);
    IndexOfSkipMismatch(g, "www.", 1, 2);
    IndexOfSkipMismatch(g, "www.", 2, 1);
    IndexOfSkipPiece(g, "www.", "www", "pass.com", "");
  }

  lemma CompassParsedStrips(parse: UrlParser, url: string, h: string)
    requires h == "www.compass.com" && parse(url) == Some(h)
    ensures GetHostname(parse, url) == RemoveFirst(RemoveFirst(h, ".com"), "www.")
  {
    assert EndsWith(h, CommonTLDs[0]);
    ParsedWithTld(parse, url, h, 0);
  }

  /** `.com` first occurs inside `compass`, so `https://www.compass.com/`
      yields `wwwpass.com`: the wrong `.com` is removed, and with it the dot
      that would have let `www.` go. */
  lemma CompassExample(parse: UrlParser, url: string, h: string)
    requires h == "www.compass.com" && parse(url) == Some(h)
    ensures GetHostname(parse, url) == "wwwpass.com"
  {
    CompassParsedStrips(parse, url, h);
    CompassFirstCom(h);
    CompassHasNoWww("wwwpass.com");
  }

  /** The stripping step `domainReducer` evidently means: cut `domain` off
      the end of `hostname`. */
  function StripSuffix(hostname: string, domain: string): (r: string)
    ensures EndsWith(hostname, domain) ==> r + domain == hostname
    ensures !EndsWith(hostname, domain) ==> r == hostname
  {
    if EndsWith(hostname, domain) then hostname[..|hostname| - |domain|] else hostname
  }

  /** `getHostname` with the listed suffix cut off the end instead of
      removed where it first occurs. */
  function GetHostnameIntended(parse: UrlParser, url: string): string
  {
    match parse(url)
    case Some(hostname) =>
      RemoveFirst(ReduceTlds(hostname, CommonTLDs, hostname, StripSuffix), "www.")
    case None => Fallback(url)
  }

  /** With the suffix cut off the end, `www.` + name + a listed suffix
      always yields the name, whatever the name contains. */
  lemma IntendedStripsWwwAndTld(parse: UrlParser, url: string, name: string, i: int)
    requires 0 <= i < |CommonTLDs|
    requires parse(url) == Some("www." + name + CommonTLDs[i])
    ensures GetHostnameIntended(parse, url) == name
  {
    var h := "www." + name + CommonTLDs[i];
    assert EndsWith(h, CommonTLDs[i]);
    CommonTLDsSuffixFree();
    ReduceUniqueMatch(h, CommonTLDs, i, h, StripSuffix);
    var g := StripSuffix(h, CommonTLDs[i]);
    assert g == "www." + name;
    RemoveFirstPrefix(g, "www.");
  }

  /** The step as written agrees with the corrected one whenever the
      suffix's text first occurs at the end. */
  lemma RemoveFirstTldIsStripWhenLast(hostname: string, domain: string)
    requires |domain| <= |hostname| && FirstOccurrence(hostname, domain, |hostname| - |domain|)
    ensures RemoveFirstTld(hostname, domain) == StripSuffix(hostname, domain)
  {
    var e := |hostname| - |domain|;
    RemoveFirstOccurrence(hostname, domain, e);
    assert hostname[e + |domain|..] == [];
  }

  /** `getHostname` as written and as meant agree on every link whose parsed
      hostname has no listed suffix, or has one whose text occurs nowhere
      earlier in it. */
  lemma WrittenAgreesWithIntended(parse: UrlParser, url: string)
    requires parse(url).Some? ==>
      var h := parse(url).value;
      forall i :: 0 <= i < |CommonTLDs| && EndsWith(h, CommonTLDs[i]) ==>
        FirstOccurrence(h, CommonTLDs[i], |h| - |CommonTLDs[i]|)
    ensures GetHostname(parse, url) == GetHostnameIntended(parse, url)
  {
    if parse(url).Some? {
      var h := parse(url).value;
      if i :| 0 <= i < |CommonTLDs| && EndsWith(h, CommonTLDs[i]) {
        CommonTLDsSuffixFree();
        ReduceUniqueMatch(h, CommonTLDs, i, h, RemoveFirstTld);
        ReduceUniqueMatch(h, CommonTLDs, i, h, StripSuffix);
        RemoveFirstTldIsStripWhenLast(h, CommonTLDs[i]);
      } else {
        ReduceNoMatch(h, CommonTLDs, h, RemoveFirstTld);
        ReduceNoMatch(h, CommonTLDs, h, StripSuffix);
      }
    }
  }
}

=== FILE: validation_util.dfy ===
/** `isEmpty`, the emptiness check on an arbitrary JavaScript value.

    A value is one of the shapes the check can tell apart. Objects carry the
    list of their own enumerable string keys, which is what `Object.keys`
    reports; a `Map` or `Set` also carries its `size`, which is independent
    of its own keys. */
module ValidationUtil {

  datatype JsValue =
    | Undefined
    | Null
    | Bool(b: bool)
    | Number(n: real)
    | BigInt(i: int)
    | Str(s: string)
    | Symbol(description: string)
    | Function(keys: seq<string>)
    | Array(elements: seq<JsValue>)
    | MapObject(size: nat, keys: seq<string>)
    | SetObject(size: nat, keys: seq<string>)
    | PlainObject(keys: seq<string>)

  /** The `typeof` operator. */
  function TypeOf(v: JsValue): string
  {
    match v
    case Undefined => "undefined"
    case Bool(_) => "boolean"
    case Number(_) => "number"
    case BigInt(_) => "bigint"
    case Str(_) => "string"
    case Symbol(_) => "symbol"
    case Function(_) => "function"
    case _ => "object"
  }

  /** `value == null`: loose equality with `null` holds for `null` and
      `undefined` only. */
  predicate LooselyNull(v: JsValue)
  {
    v.Undefined? || v.Null?
  }

  /** `isEmpty(value)`, in the order the source examines the cases: nullish,
      then strings and arrays by length, then objects (maps and sets by
      size, everything else by own keys), and `false` for the rest. */
  function IsEmpty(v: JsValue): (r: bool)
    ensures LooselyNull(v) ==> r
    ensures v.Str? ==> (r <==> v.s == [])
    ensures v.Array? ==> (r <==> v.elements == [])
    ensures v.MapObject? || v.SetObject? ==> (r <==> v.size == 0)
    ensures v.PlainObject? ==> (r <==> v.keys == [])
    ensures v.Bool? || v.Number? || v.BigInt? || v.Symbol? || v.Function? ==> !r
  {
    if LooselyNull(v) then true
    else if TypeOf(v) == "string" then |v.s| == 0
    else if v.Array? then |v.elements| == 0
    else if TypeOf(v) == "object" then
      if v.MapObject? || v.SetObject? then v.size == 0
      else |v.keys| == 0
    else false
  }

  /** JavaScript's `ToBoolean`; `NaN` is not among the modelled numbers. */
  predicate Truthy(v: JsValue)
  {
    match v
    case Undefined => false
    case Null => false
    case Bool(b) => b
    case Number(n) => n != 0.0
    case BigInt(i) => i != 0
    case Str(s) => s != ""
    case _ => true
  }

  /** An object is a value whose `typeof` is `object` or `function`, apart
      from `null`. */
  predicate IsObject(v: JsValue)
  {
    !v.Null? && (TypeOf(v) == "object" || TypeOf(v) == "function")
  }

  /** Emptiness is not falsiness. They agree on nullish values and strings;
      an empty object is empty yet truthy, and exactly `false`, `0` and
      `0n` are falsy yet not empty. */
  lemma EmptyIsNotFalsy(v: JsValue)
    ensures LooselyNull(v) || v.Str? ==> (IsEmpty(v) <==> !Truthy(v))
    ensures IsEmpty(v) && Truthy(v) <==> IsObject(v) && IsEmpty(v)
    ensures !IsEmpty(v) && !Truthy(v) <==> v == Bool(false) || v == Number(0.0) || v == BigInt(0)
  {
  }
}

=== FILE: wrappers.dfy ===
/** Failure-compatible wrappers for values that may be absent (`undefined`)
    and for operations that may throw. */
module Wrappers {

  /** A value that may be absent, the model of JavaScript's `undefined`. */
  datatype Option<+T> = None | Some(value: T)

  /** The outcome of an operation that either returns a value or throws. */
  datatype Result<+R, +E> = Success(value: R) | Failure(error: E)
}
